=== FILE: README.md ===
# NFS lock release and container entry, modelled in Dafny

The NFS lock control tool makes an NFS server drop the locks held by a
client. It does this by sending the server's status monitor (rpc.statd; NSM,
RPC program 100024 version 1) an SM_NOTIFY call (procedure 6). The call says
the client rebooted with a given state number. The tool comes in two
near-duplicate versions:

- `notify` (`nfs_lock_control_tool/notify.c`). It keeps a transaction id
  across calls, resolves the server once, round-robins over the server's
  resolved addresses, and can sweep every odd state number ("forced mode").
- `clear_nfs_locks` (`nfs_lock_control_tool/clear_nfs_locks.c`). It sends
  transaction id 0, resolves the server on every call, and sends state 3
  ahead of the "magic" state 1.

Both versions build the call by hand in a cleared buffer of 256 32-bit
words. The layout follows section 9 of RFC 5531 with AUTH_NONE credentials
(section 10.1). The name is an XDR string (sections 4.2 and 4.11 of RFC
4506). Each version checks the fixed head of the reply, asks the portmapper
for the statd port (section 3 of RFC 1833), and binds a socket through a
retry loop that avoids ports registered in the service database.

`strace_test/fork_enter.c` contributes two more pieces:
- the ELF identification of `/sbin/init`: magic, then the class byte;
- the EBUSY retry loop around the container-create ioctl, with the 32-bit
  personality switch that follows a successful entry.

Everything outside the process becomes an input that says how the call
turned out. This covers name resolution, `sendto`, `poll`/`recv`,
`socket`/`bindresvport`/`getservbyport`, `pmap_getmaps`, `ioctl`,
`personality`, `stat`/`open`/`read`, and the clock and process id. Buffers
the C code writes through a word pointer are byte arrays holding big-endian
words.

Modules:
- `Xdr`: bytes, 32-bit words, padding, and buffer stores.
- `Rpc`: the call layout, a mirror decoder and the reply head.
- `Net`: the outside-world inputs.
- `Portmap`: the port search that both versions share.
- `Notify`, `ClearNfsLocks` and `ForkEnter`: one module per source file.

## Model

| member | source | states |
|---|---|---|
| Xdr.Wrap32 | nfs_lock_control_tool/notify.c:165-166 | assigning to an unsigned int keeps `x` modulo 2^32, and leaves a value already in range unchanged |
| Xdr.Be32 | nfs_lock_control_tool/notify.c:182-184 | the four bytes `htonl` stores read back, most significant first, as the value stored |
| Xdr.Pad | nfs_lock_control_tool/notify.c:224 | stepping over `(len + 3) >> 2` words leaves fewer than 4 padding bytes, reaches a multiple of 4, and equals the XDR padding `(4 - len mod 4) mod 4` |
| Xdr.WordsAt | nfs_lock_control_tool/notify.c:181-184 | word `i` of a run of big-endian stores reads back as the `i`-th value stored |
| Xdr.Store | nfs_lock_control_tool/notify.c:223 | `memcpy` writes exactly the given bytes at the offset, and every other byte keeps its old value |
| Xdr.Clear | nfs_lock_control_tool/notify.c:179 | after `memset` every byte of the buffer is zero |
| Xdr.EmitWord | nfs_lock_control_tool/notify.c:182-184 | `*p++ = htonl(v)` on a cleared buffer extends the written prefix by the word, with zeros after it |
| Xdr.EmitWords | nfs_lock_control_tool/notify.c:212-222 | a run of consecutive `*p++ = htonl(v)` stores on a cleared buffer extends the written prefix by exactly those words, with zeros after them |
| Xdr.WordAtPrefix | nfs_lock_control_tool/notify.c:227 | a word inside the written prefix reads the same whatever is written after it |
| Xdr.SkipWords | nfs_lock_control_tool/clear_nfs_locks.c:119 | `p += k` over a cleared buffer leaves `k` zero words in the written prefix |
| Rpc.CallWords | nfs_lock_control_tool/notify.c:181-222 | the call opens with exactly 11 words |
| Rpc.CallPacket | nfs_lock_control_tool/notify.c:221-227 | the call's length is 48 + 4·⌈len/4⌉ bytes, a whole number of words |
| Rpc.CallPacketHead | nfs_lock_control_tool/notify.c:181-222 | words 0..10 of the call are xid, CALL, 2, 100024, 1, 6, four AUTH_NONE zero words, and the name length |
| Rpc.CallPacketTail | nfs_lock_control_tool/notify.c:221-225 | the name starts at byte 44 with no terminator, the padding after it is zero, and the word after the padding is the state |
| Rpc.CallRoundTrip | nfs_lock_control_tool/notify.c:179-227 | decoding the call the server's way recovers xid, message type, RPC version, program, version, procedure, flavors, name and state |
| Rpc.ReplyRoundTrip | nfs_lock_control_tool/notify.c:134-139 | the six reply-head words read back as the fields they encode |
| Net.Received | nfs_lock_control_tool/notify.c:123 | `recv` into a 1024-byte buffer keeps a prefix of the datagram, cut only when the datagram is longer than the buffer |
| Portmap.FirstStatdPort | nfs_lock_control_tool/notify.c:248-264 | the port of the first UDP registration of program 100024, whatever its version; 0 when the list is empty or has no such entry |
| Portmap.GetStatdPort | nfs_lock_control_tool/clear_nfs_locks.c:189-205 | the list walk returns the first matching registration's port, or 0 |
| Notify.EncodeCall | nfs_lock_control_tool/notify.c:179-227 | the bytes handed to `sendto` are exactly the SM_NOTIFY call for the host's xid, the client name and the state |
| Notify.WriteCallHead | nfs_lock_control_tool/notify.c:181-222 | the eleven header stores fill the cleared buffer with the call's header words and leave the rest zero |
| Notify.RecvReply | nfs_lock_control_tool/notify.c:103-151 | 0 exactly when `poll` reports nothing (a timeout counts as success), or when at least 24 bytes arrived with words 1..5 equal to REPLY, MSG_ACCEPTED, AUTH_NONE, 0 and SUCCESS; -1 otherwise |
| Notify.ReplyXidIgnored | nfs_lock_control_tool/notify.c:134 | the reply's xid never changes the verdict |
| Notify.ReplyAcceptance | nfs_lock_control_tool/notify.c:135-142 | a well-formed reply head is accepted exactly when it is an accepted SUCCESS reply with an empty AUTH_NONE verifier |
| Notify.GetPort | nfs_lock_control_tool/notify.c:92-101 | the port of an AF_INET or AF_INET6 address, 0 for any other family |
| Notify.SetPort | nfs_lock_control_tool/notify.c:80-101 | family and address are kept; for AF_INET and AF_INET6, `smn_get_port` reads back the port that was set; any other address is unchanged and reads as port 0 |
| Notify.Rotate | nfs_lock_control_tool/notify.c:186-204 | the reordering keeps the number of addresses |
| Notify.RotatePermutes | nfs_lock_control_tool/notify.c:186-204 | no address is lost or duplicated; with several addresses the first moves to the end and the others keep their order |
| Notify.RoundRobin | nfs_lock_control_tool/notify.c:186-206 | after `k` sends the list is turned by `k` places, so the next send uses the `k`-th address; after as many sends as addresses the list is as it was |
| Notify.RotateTurned | nfs_lock_control_tool/notify.c:190-201 | one more send turns a list already turned by `j` places to `j + 1` places |
| Notify.RotateNAdd | nfs_lock_control_tool/notify.c:186-204 | `a` sends followed by `b` sends reorder the list as `a + b` sends do |
| Notify.RoundRobinPeriod | nfs_lock_control_tool/notify.c:186-206 | the choice of address repeats with the length of the list as its period |
| Notify.NsmHost.constructor | nfs_lock_control_tool/notify.c:463-464 | a cleared host record with its name set, no resolved addresses and xid 0 |
| Notify.NsmHost.UseNextAddress | nfs_lock_control_tool/notify.c:186-206 | the address used is the first resolved one with the server port set, and the list is rotated |
| Notify.NextXid | nfs_lock_control_tool/notify.c:168 | the next xid exceeds the old one by 1 modulo 2^32 |
| Notify.NextXidWraps | nfs_lock_control_tool/notify.c:168 | `xid++` on an unsigned int is the successor modulo 2^32 and never leaves the value unchanged |
| Notify.Notifier.constructor | nfs_lock_control_tool/notify.c:161 | the static counter starts at 0 |
| Notify.Notifier.AssignXid | nfs_lock_control_tool/notify.c:165-168 | the counter is seeded only while it is 0; a host without an xid takes the counter's value and the counter goes up by one; a host that has an xid keeps it and the counter does not move |
| Notify.Notifier.NotifyHost | nfs_lock_control_tool/notify.c:156-236 | resolves only while the host has no addresses and returns -1 when that fails; otherwise sends the call for the host's xid to the next address in the round robin; returns -2 when `sendto` fails, otherwise the reply check's code |
| Notify.Notifier.SweepStep | nfs_lock_control_tool/notify.c:471 | one call of the sweep returns the code given by whether the host was resolved before, and leaves the host resolved once any lookup has succeeded; when the host had no addresses and the lookup finds none, nothing is sent; otherwise exactly one datagram is appended to those sent, and the server decodes it as an SM_NOTIFY call for the client with this call's state |
| Notify.SweepFrom | nfs_lock_control_tool/notify.c:470-472 | the sweep from any state makes at least one call |
| Notify.SweepStopsAtFirstFailure | nfs_lock_control_tool/notify.c:470-472 | when the calls for the first `m` odd states succeed and the next one fails, the sweep makes exactly `m + 1` calls and returns that failure |
| Notify.SweepExample | nfs_lock_control_tool/notify.c:466-473 | a server that accepts states 1, 3 and 5 and rejects 7 ends the sweep after four calls with -1 |
| Notify.ForcedSweep | nfs_lock_control_tool/notify.c:466-473 | the loop calls `notify_host` with states 1, 3, 5, … in ascending order, stops at the first negative result, and returns the result of the last call; the j-th datagram sent announces the client with state 2j + 1, and one datagram is sent per call, except that nothing at all is sent when the host starts unresolved and the first lookup finds nothing |
| Notify.BindSocket | nfs_lock_control_tool/notify.c:436-461 | the bind loop ends as Notify.ScanPorts defines: a socket error exits, a port in the service database is tried again, and a socket is kept when the port `getservbyport` is asked about is not in the service database |
| Notify.ScanPortsSound | nfs_lock_control_tool/notify.c:437-460 | the failure exit is unreachable because the counter is reset on every pass; a socket is kept only when the port `getservbyport` is asked about is outside the service database, after only collisions |
| Notify.StatdState | nfs_lock_control_tool/notify.c:274-277 | a state directory path longer than 1000 bytes (as `strlen` counts) gives state 0 |
| Notify.Configure | nfs_lock_control_tool/notify.c:375-411 | exit 1 exactly when client or server is missing, when none of state directory, state or `-f` is given, or when the directory yields state 0; a state directory or a non-zero state turns `-f` off, `-f` turns `-v` off, and forced mode is on exactly when the state is 0 |
| Notify.Setup | nfs_lock_control_tool/notify.c:413-428 | exit 1 exactly when the options are rejected, when no port is given and the portmapper's answer cut to 16 bits is 0, or when a local address is given and does not resolve; otherwise the port given is kept, or the portmapper's answer cut to 16 bits is used |
| Notify.Run | nfs_lock_control_tool/notify.c:318-483 | no arguments returns 0; a setup failure or a socket error returns 1; otherwise, outside forced mode, the code of one notification and, unless the lookup finds nothing, one datagram announcing the client with the configured state; in forced mode the sweep's result, with the datagrams announcing states 1, 3, 5, … |
| ClearNfsLocks.EncodeUnlock | nfs_lock_control_tool/clear_nfs_locks.c:111-127 | the packet is the SM_NOTIFY call with xid 0 (and CALL) left from the cleared buffer, the client name and the state |
| ClearNfsLocks.WriteUnlockHead | nfs_lock_control_tool/clear_nfs_locks.c:112-121 | starting at word 2 and skipping the four auth words yields the same header words as an explicit xid 0, CALL and AUTH_NONE |
| ClearNfsLocks.UnlockDatagram | nfs_lock_control_tool/clear_nfs_locks.c:104-109 | the destination keeps the first resolved address and its family and gets the statd port whatever the family |
| ClearNfsLocks.UnlockDatagramDecodes | nfs_lock_control_tool/clear_nfs_locks.c:112-127 | the server decodes an SM_NOTIFY call with xid 0, the client's name and the state |
| ClearNfsLocks.SendUnlockMessage | nfs_lock_control_tool/clear_nfs_locks.c:87-140 | -1 and nothing sent when resolution fails; otherwise the unlock datagram goes to the first resolved address, and the result is -2 when `sendto` fails and 0 otherwise |
| ClearNfsLocks.ReceiveServerAnswer | nfs_lock_control_tool/clear_nfs_locks.c:46-82 | 0 exactly when at least 24 bytes arrived whose words 1..4 are REPLY, MSG_ACCEPTED, AUTH_NONE and 0; a timeout or receive error gives -1; only 0 or -1 is returned |
| ClearNfsLocks.AnswerIgnoresXidAndAcceptStat | nfs_lock_control_tool/clear_nfs_locks.c:72-76 | neither the xid nor the accept status (word 5) affects the verdict |
| ClearNfsLocks.AnswerVersusNotify | nfs_lock_control_tool/clear_nfs_locks.c:58-62 | every datagram the notify tool accepts is accepted here; a timeout is a failure here and a success in the notify tool |
| ClearNfsLocks.AcceptStatOnlyNotifyChecks | nfs_lock_control_tool/clear_nfs_locks.c:72-76 | an accepted reply whose accept status is not SUCCESS is a success here and a failure in the notify tool |
| ClearNfsLocks.ClearCode | nfs_lock_control_tool/clear_nfs_locks.c:142-152 | the result is -2, -1 or 0; -2 exactly when resolution succeeds and `sendto` fails; 0 exactly when the answer is received and accepted |
| ClearNfsLocks.NfsClearLocks | nfs_lock_control_tool/clear_nfs_locks.c:142-152 | the answer is awaited only after a successful send; send errors come back unchanged |
| ClearNfsLocks.StatesTried | nfs_lock_control_tool/clear_nfs_locks.c:163-177 | any state but the magic one is notified alone; the magic state is never notified first: 3 goes before it, and two notifications happen exactly for the magic state when the one with 3 succeeds |
| ClearNfsLocks.ClearResult | nfs_lock_control_tool/clear_nfs_locks.c:154-178 | the magic state succeeds exactly when both notifications do; any other state is notified once; on success the requested state was the last one sent |
| ClearNfsLocks.ClearLocks | nfs_lock_control_tool/clear_nfs_locks.c:154-178 | the datagrams sent, in order, carry the states tried to the address each exchange resolved; a notification with no datagram is a resolution failure that ends the sequence |
| ClearNfsLocks.BindSocket | nfs_lock_control_tool/clear_nfs_locks.c:316-342 | the counted loop ends as ClearNfsLocks.BindFrom defines |
| ClearNfsLocks.BindOutcomes | nfs_lock_control_tool/clear_nfs_locks.c:316-342 | a socket is kept when the port `getservbyport` is asked about is free, after only collisions, with 1 to 10 retries left; a bind failure is reported exactly when the first ten attempts collide and the eleventh finds a free port; when all eleven collide nothing is reported |
| ClearNfsLocks.Setup | nfs_lock_control_tool/clear_nfs_locks.c:279-309 | exit 1 exactly when client or server is missing, the port is 0 and the portmapper's answer cut to 16 bits is 0, or the local address does not resolve; the state defaults to the magic state 1 |
| ClearNfsLocks.Run | nfs_lock_control_tool/clear_nfs_locks.c:231-357 | no arguments returns 0; a setup failure, a socket error or a reported bind failure returns 1; otherwise the result of the clearing, including after all eleven bind attempts collided |
| ForkEnter.CheckElfMagic | strace_test/fork_enter.c:76-84 | 0 exactly when the first four bytes are "\177ELF" or "\177OLF", -1 otherwise |
| ForkEnter.GetArchFromElf | strace_test/fork_enter.c:86-113 | -1 exactly when `stat`, the regular-file test, `open` or `read` fails, fewer than 20 bytes are read, or the magic is wrong; otherwise class byte 1 gives elf_32, 2 gives elf_64 and any other gives elf_none |
| ForkEnter.ArchDependsOnIdentOnly | strace_test/fork_enter.c:103-112 | for readable regular files, the classification depends only on the first five bytes |
| ForkEnter.SetPersonality32 | strace_test/fork_enter.c:115-134 | nothing changes unless /sbin/init is elf_32; then the current personality OR-ed with PER_LINUX32 is set (PER_LINUX32 on, every other bit kept), or -1 with no change when the kernel refuses |
| ForkEnter.SetPersonality32Idempotent | strace_test/fork_enter.c:120 | setting the 32-bit personality again changes nothing |
| ForkEnter.VzEnvCreateIoctl | strace_test/fork_enter.c:137-160 | 1 to 4 ioctls, with a sleep before every one but the first; every call but the last failed with EBUSY, and the last did not unless all four did; the last result is returned; groups are cleared and the personality adjusted exactly when that result is non-negative and `flags` has VE_ENTER |

## Left out

- Sockets, name resolution, the portmapper query, `poll`/`recv`/`sendto`, `ioctl`, `personality`, `setgroups`, `stat`/`open`/`read` and `sleep` are outside calls. Their results are inputs. The model records what is sent and how many calls and sleeps happen, but no timing.
- Command-line parsing (`getopt`, `atoi`) is not modelled. The models start from the parsed options, with `atoi`'s value already in range. `main`'s return value is the model's status; the process exit status (modulo 256) is not modelled.
- `help`, `dump`, every `printf`/`v_printf`/`perror` message, and verbose output are left out, since they only print. So is the `-h` exit. In notify.c the dead failure branch of the bind loop calls `stderror` (notify.c:458), a misspelling that never runs.
- `get_statd_state` reads a host-endian word from `<dir>/state`; that read is file I/O. Notify.StatdState keeps only the path-length guard, on the path as bytes; the value read is an input.
- The resolved-address list is a linked list of `addrinfo` in C. It is a sequence here, so aliasing of list nodes is not modelled.
- Notify.EncodeCall, ClearNfsLocks.EncodeUnlock: require a name of at most 976 bytes (1024 − 48). The C code does not check the length and overruns its 1024-byte buffer for longer names.
- Notify.RecvReply: a timeout counts as success. notify.c:118-121 prints "Failed to receive the answer from server" and then returns 0, and the model returns 0 too.
- Notify.Notifier.NotifyHost: the seed `getpid() + time(NULL)` is an input already cut to 32 bits. It is used whenever the counter is 0, so the model reseeds with the same value if the counter ever wraps back to 0.
- Notify.ForcedSweep: does not state the xid each datagram carries or the address it goes to; Notify.Notifier.NotifyHost states both per call. The xid need not stay the same over the sweep: with a seed of 0 the host gets xid 0 on the first call and xid 1 on the second.
- Notify.ForcedSweep: the C loop counts with a signed int compared against UINT_MAX, which overflows after 2^31. The model sweeps the unsigned values that reach the wire (1, 3, …, 2^32 − 3).
- `bindresvport`'s result is ignored by both tools (notify.c:449, clear_nfs_locks.c:328), and its failure is not modelled: Net.BindAttempt gives the port `getservbyport` is asked about, whatever the address holds. Without `-l` that address is uninitialised (notify.c:321, clear_nfs_locks.c:238). A kept socket may therefore be unbound.
- Notify.BindSocket: the C loop never ends while every port asked about collides. The model stops after `fuel` attempts and reports StillTrying; Notify.Run then returns no status.
- Notify.Setup, ClearNfsLocks.Setup: the portmapper's port is stored into an unsigned short; the model writes that as the value modulo 65536.
- ClearNfsLocks.Run: after all eleven bind attempts collide, the socket is closed but the C code goes on to send. What that closed socket does is left to the exchange inputs.
- ForkEnter: the values VE_ENTER = 4 and EBUSY = 16 come from the kernel and vzctl headers (`vzcalluser.h`, `errno.h`), which are not part of this model. The personality is modelled as 32 bits, and the `personality(0xffffffff)` query is assumed not to fail.
- ForkEnter.SetPersonality32: modelled for the x86_64 build, where the switch is compiled in; other builds skip it.
- fork_enter.c `main` (fork, wait, daemon), `vz_setluid` and `setluid`, nfslk.c, test_lock.c, vzunlock.c and netns-sandbox/make_sandbox.c are process, kernel or printing plumbing, and are not part of this model.

=== FILE: clear_nfs_locks.dfy ===
/**
 * `clear_nfs_locks`: tells one NFS server's rpc.statd that a client has
 * rebooted, so that the server drops the locks the client held. The message
 * is the same SM_NOTIFY call as the notify tool's, with transaction id 0;
 * the reply check and the bind loop differ from the notify tool's.
 */
module ClearNfsLocks {
  import opened Wrappers
  import opened Xdr
  import opened Rpc
  import opened Net
  import Portmap
  import Notify

  /** The message buffer: 256 32-bit words. */
  const BUF_BYTES: nat := 1024
  /** The longest client name whose message fits the buffer (1024 - 48). */
  const MAX_NAME_LEN: nat := 976
  /** The state some rpc.statd versions refuse to act on unless 3 came first. */
  const MAGIC_NSM_STATE: u32 := 1
  /** The state sent ahead of the magic one. */
  const PRE_MAGIC_STATE: u32 := 3
  const SERVER_ANSWER_SIZE: nat := 24
  /** The initial value of the bind loop's counter. */
  const BIND_RETRIES: nat := 10

  datatype ServerInfo = ServerInfo(name: string, statdPort: u16)

  /** The client record; its name length is the length of `name`. */
  datatype ClientInfo = ClientInfo(name: seq<byte>, state: u32)

  // ---------------------------------------------------------------------------
  // The message

  /**
   * Builds the SM_NOTIFY call in a cleared buffer. The transaction id and
   * the message type are left as the zeros of the cleared buffer.
   */
  method EncodeUnlock(client: ClientInfo) returns (pkt: seq<byte>)
    requires |client.name| <= MAX_NAME_LEN
    ensures pkt == CallPacket(0, client.name, client.state)
  {
    var buffer := new byte[BUF_BYTES];
    Clear(buffer);
    var len := |client.name|;
    var p := WriteUnlockHead(buffer, len);
    ghost var w := Words(CallWords(0, len));
    Emit(buffer, 4 * p, w, client.name);
    SkipBytes(buffer, w + client.name, Pad(len));
    p := p + (len + 3) / 4;
    w := w + client.name + Zeros(Pad(len));
    Emit(buffer, 4 * p, w, Be32(client.state));
    p := p + 1;
    w := w + Be32(client.state);
    assert buffer[..4 * p] == w;
    pkt := buffer[..4 * p];
  }

  /**
   * The head of the call: writing starts at word 2, and the credential and
   * verifier words are skipped over, so they stay zero.
   */
  method WriteUnlockHead(buffer: array<byte>, len: u32) returns (p: nat)
    requires buffer.Length == BUF_BYTES && Filled(buffer, [])
    modifies buffer
    ensures p == 11 && Filled(buffer, Words(CallWords(0, len)))
  {
    ghost var ws: seq<u32> := seq(2, _ => 0);
    SkipWords(buffer, [], 2);
    var call := [RPC_VERSION, NSM_PROGRAM, NSM_VERSION, SM_NOTIFY];
    EmitWords(buffer, 2, ws, call);
    ws := ws + call;
    SkipWords(buffer, ws, 4);
    ws := ws + seq(4, _ => 0);
    EmitWord(buffer, 10, ws, len);
    assert ws + [len] == CallWords(0, len);
    p := 11;
  }

  /** The datagram sent to the first resolved address, with the statd port set. */
  function UnlockDatagram(server: ServerInfo, client: ClientInfo, a: SockAddr): (d: Datagram)
    requires |client.name| <= MAX_NAME_LEN
    ensures d.dest.family == a.family && d.dest.host == a.host && d.dest.port == server.statdPort
  {
    Datagram(a.(port := server.statdPort), CallPacket(0, client.name, client.state))
  }

  /**
   * The server reads back from the datagram a call of procedure SM_NOTIFY
   * with transaction id 0, the client's name and the state.
   */
  lemma UnlockDatagramDecodes(server: ServerInfo, client: ClientInfo, a: SockAddr)
    requires |client.name| <= MAX_NAME_LEN
    ensures DecodeCall(UnlockDatagram(server, client, a).payload) ==
              Some(CallMsg(0, CALL, RPC_VERSION, NSM_PROGRAM, NSM_VERSION, SM_NOTIFY,
                           AUTH_NONE, AUTH_NONE, client.name, client.state))
  {
    CallRoundTrip(0, client.name, client.state);
  }

  /**
   * `send_unlock_message`: resolves the server's name on every call, sets
   * the port whatever the family of the first address, and sends. -1 when
   * resolution fails, -2 when `sendto` fails.
   */
  method SendUnlockMessage(server: ServerInfo, client: ClientInfo, ex: Exchange)
    returns (r: int, datagram: Option<Datagram>)
    requires |client.name| <= MAX_NAME_LEN
    ensures ex.lookup == [] ==> r == -1 && datagram == None
    ensures ex.lookup != [] ==>
              datagram == Some(UnlockDatagram(server, client, ex.lookup[0])) &&
              r == (if ex.sendOk then 0 else -2)
  {
    if ex.lookup == [] {
      return -1, None;
    }
    var address := ex.lookup[0];
    address := address.(port := server.statdPort);
    var pkt := EncodeUnlock(client);
    datagram := Some(Datagram(address, pkt));
    if !ex.sendOk {
      return -2, datagram;
    }
    r := 0;
  }

  // ---------------------------------------------------------------------------
  // The answer

  /**
   * What the answer check demands of a reply head: a reply, accepted, with
   * an empty AUTH_NONE verifier. The word after the verifier (the accept
   * status) is not looked at.
   */
  predicate HeadAccepted(h: ReplyHead)
  {
    h.msgType == REPLY && h.replyStat == MSG_ACCEPTED && h.verfFlavor == AUTH_NONE && h.verfLen == 0
  }

  /** How `receive_server_answer` ends: 0 or -1. */
  function AnswerCode(reply: RecvOutcome): int
  {
    match reply
    case PollFails => -1
    case RecvFails => -1
    case Arrived(d) =>
      var s := Received(d);
      if DecodeReplyHead(s).Some? && HeadAccepted(DecodeReplyHead(s).value) then 0 else -1
  }

  /**
   * `receive_server_answer`: waits for the answer, fails on a timeout, a
   * receive error or an answer shorter than a reply head, and otherwise
   * checks words 1 to 4 of the buffer.
   */
  method ReceiveServerAnswer(reply: RecvOutcome) returns (code: int)
    ensures code == AnswerCode(reply)
    ensures code == 0 <==>
              reply.Arrived? && |Received(reply.datagram)| >= SERVER_ANSWER_SIZE &&
              HeadAccepted(DecodeReplyHead(Received(reply.datagram)).value)
    ensures code == 0 || code == -1
  {
    if reply.PollFails? || reply.RecvFails? {
      return -1;
    }
    var buffer := new byte[BUF_BYTES];
    var data := Received(reply.datagram);
    var result := |data|;
    Store(buffer, 0, data);
    if result < SERVER_ANSWER_SIZE {
      return -1;
    }
    forall i | 0 <= i < 6
      ensures WordOf(buffer, i) == WordAt(data, i)
    {
      assert buffer[4 * i .. 4 * i + 4] == data[4 * i .. 4 * i + 4];
    }
    // the status word is compared twice and the accept status never
    if WordOf(buffer, 1) != REPLY || WordOf(buffer, 2) != MSG_ACCEPTED ||
       WordOf(buffer, 3) != AUTH_NONE || WordOf(buffer, 4) != 0 ||
       WordOf(buffer, 4) != 0 {
      return -1;
    }
    return 0;
  }

  /** A reply head is accepted or not whatever its transaction id and accept status. */
  lemma AnswerIgnoresXidAndAcceptStat(h: ReplyHead, xid: u32, acceptStat: u32)
    ensures AnswerCode(Arrived(ReplyPacket(h))) == (if HeadAccepted(h) then 0 else -1)
    ensures AnswerCode(Arrived(ReplyPacket(h))) ==
            AnswerCode(Arrived(ReplyPacket(h.(xid := xid, acceptStat := acceptStat))))
  {
    ReplyRoundTrip(h);
    ReplyRoundTrip(h.(xid := xid, acceptStat := acceptStat));
  }

  /**
   * Compared with the notify tool's reply check: every datagram that tool
   * accepts is accepted here, and a timeout is a success there and a
   * failure here.
   */
  lemma AnswerVersusNotify(reply: RecvOutcome)
    ensures reply.Arrived? && Notify.ReplyCode(reply) == 0 ==> AnswerCode(reply) == 0
    ensures AnswerCode(PollFails) == -1 && Notify.ReplyCode(PollFails) == 0
  {
  }

  /**
   * An accepted reply whose accept status is not SUCCESS (PROG_UNAVAIL,
   * say) counts as a success here and as a failure for the notify tool.
   */
  lemma AcceptStatOnlyNotifyChecks(h: ReplyHead)
    requires HeadAccepted(h) && h.acceptStat != SUCCESS
    ensures AnswerCode(Arrived(ReplyPacket(h))) == 0
    ensures Notify.ReplyCode(Arrived(ReplyPacket(h))) == -1
  {
    ReplyRoundTrip(h);
    Notify.ReplyAcceptance(h);
  }

  // ---------------------------------------------------------------------------
  // One notification and the magic state

  /**
   * How `nfs_clear_locks` ends for one exchange: -1 for a failed
   * resolution, -2 only for a failed send, 0 only for an accepted answer.
   */
  function ClearCode(ex: Exchange): (r: int)
    ensures r in {-2, -1, 0}
    ensures r == -2 <==> ex.lookup != [] && !ex.sendOk
    ensures r == 0 <==>
              ex.lookup != [] && ex.sendOk && ex.reply.Arrived? &&
              DecodeReplyHead(Received(ex.reply.datagram)).Some? &&
              HeadAccepted(DecodeReplyHead(Received(ex.reply.datagram)).value)
  {
    if ex.lookup == [] then -1 else if !ex.sendOk then -2 else AnswerCode(ex.reply)
  }

  /** `nfs_clear_locks`: send, and wait for the answer only after a successful send. */
  method NfsClearLocks(server: ServerInfo, client: ClientInfo, ex: Exchange)
    returns (r: int, datagram: Option<Datagram>)
    requires |client.name| <= MAX_NAME_LEN
    ensures r == ClearCode(ex)
    ensures datagram == if ex.lookup == [] then None else Some(UnlockDatagram(server, client, ex.lookup[0]))
  {
    r, datagram := SendUnlockMessage(server, client, ex);
    if r == 0 {
      r := ReceiveServerAnswer(ex.reply);
    }
  }

  /**
   * The states `clear_nfs_locks` notifies, in order: any other state alone;
   * the magic state never first but after 3, and only when the
   * notification with 3 did not fail.
   */
  function StatesTried(state: u32, first: Exchange): (tried: seq<u32>)
    ensures tried == [state] || tried == [PRE_MAGIC_STATE] || tried == [PRE_MAGIC_STATE, state]
    ensures tried[0] == if state == MAGIC_NSM_STATE then PRE_MAGIC_STATE else state
    ensures state != MAGIC_NSM_STATE ==> tried == [state]
    ensures |tried| == 2 <==> state == MAGIC_NSM_STATE && ClearCode(first) >= 0
  {
    if state != MAGIC_NSM_STATE then [state]
    else if ClearCode(first) < 0 then [PRE_MAGIC_STATE]
    else [PRE_MAGIC_STATE, MAGIC_NSM_STATE]
  }

  /**
   * The result of `clear_nfs_locks`, that of the last notification made:
   * the magic state succeeds only when both notifications do, any other
   * state is notified exactly once, and success means the requested state
   * was the last one sent.
   */
  function ClearResult(state: u32, first: Exchange, second: Exchange): (r: int)
    ensures state == MAGIC_NSM_STATE ==> (r >= 0 <==> ClearCode(first) >= 0 && ClearCode(second) >= 0)
    ensures state != MAGIC_NSM_STATE ==> r == ClearCode(first)
    ensures r >= 0 ==> StatesTried(state, first)[|StatesTried(state, first)| - 1] == state
  {
    if |StatesTried(state, first)| == 1 then ClearCode(first) else ClearCode(second)
  }

  /**
   * `clear_nfs_locks`. `first` and `second` say how the first and the
   * second notification turn out; `sent` are the datagrams handed to
   * `sendto`, `tried` the states notified.
   */
  method ClearLocks(server: ServerInfo, clientName: seq<byte>, state: u32, first: Exchange, second: Exchange)
    returns (r: int, tried: seq<u32>, sent: seq<Datagram>)
    requires |clientName| <= MAX_NAME_LEN
    ensures r == ClearResult(state, first, second) && tried == StatesTried(state, first)
    ensures |sent| <= |tried|
    ensures |sent| < |tried| ==>
              |sent| == |tried| - 1 && r == -1 && (if |sent| == 0 then first else second).lookup == []
    ensures |sent| >= 1 ==>
              first.lookup != [] && sent[0] == UnlockDatagram(server, ClientInfo(clientName, tried[0]), first.lookup[0])
    ensures |sent| == 2 ==>
              second.lookup != [] && sent[1] == UnlockDatagram(server, ClientInfo(clientName, tried[1]), second.lookup[0])
  {
    var d: Option<Datagram>;
    tried, sent := [], [];
    if state == MAGIC_NSM_STATE {
      r, d := NfsClearLocks(server, ClientInfo(clientName, PRE_MAGIC_STATE), first);
      tried := [PRE_MAGIC_STATE];
      if d.Some? {
        sent := [d.value];
      }
      if r < 0 {
        return;
      }
      r, d := NfsClearLocks(server, ClientInfo(clientName, state), second);
      tried := tried + [state];
      if d.Some? {
        sent := sent + [d.value];
      }
    } else {
      r, d := NfsClearLocks(server, ClientInfo(clientName, state), first);
      tried := [state];
      if d.Some? {
        sent := [d.value];
      }
    }
  }

  // ---------------------------------------------------------------------------
  // The bind loop

  datatype BindOutcome =
    | Bound(port: u16, retries: int)  // kept: no service is registered for `port`
    | SocketError                     // socket() failed: exit(1)
    | BindFailed                      // the counter is 0 after the loop: exit(1)
    | Exhausted                       // every attempt collided: the counter is -1, no exit

  /**
   * What the loop does from attempt `k` on: a socket whose port is in
   * `known` (the service database) is closed, and the post-decremented
   * counter decides whether another is made. The counter is 10 - k when
   * attempt `k` starts.
   */
  function BindFrom(attempt: nat -> BindAttempt, known: set<u16>, k: nat): BindOutcome
    requires k <= BIND_RETRIES
    decreases BIND_RETRIES - k
  {
    match attempt(k)
    case SocketFails => SocketError
    case Opened(p) =>
      if p !in known then (if k == BIND_RETRIES then BindFailed else Bound(p, BIND_RETRIES - k))
      else if k == BIND_RETRIES then Exhausted
      else BindFrom(attempt, known, k + 1)
  }

  /** The loop of `main`, with its counter tested and then decremented. */
  method BindSocket(attempt: nat -> BindAttempt, known: set<u16>) returns (out: BindOutcome)
    ensures out == BindFrom(attempt, known, 0)
  {
    var bindRetries: int := BIND_RETRIES;
    var k := 0;
    var port: Option<u16> := None;
    while true
      invariant 0 <= k <= BIND_RETRIES && bindRetries == BIND_RETRIES - k
      invariant BindFrom(attempt, known, k) == BindFrom(attempt, known, 0)
      decreases bindRetries
    {
      match attempt(k) {
        case SocketFails =>
          return SocketError;
        case Opened(p) =>
          if p !in known {
            port := Some(p);
            break;
          }
      }
      if bindRetries == 0 {
        bindRetries := bindRetries - 1;
        break;
      }
      bindRetries := bindRetries - 1;
      k := k + 1;
    }
    if bindRetries == 0 {
      return BindFailed;
    }
    if port.None? {
      return Exhausted;
    }
    return Bound(port.value, bindRetries);
  }

  /**
   * What the loop's outcomes mean: a socket is kept when the port asked
   * about is free, after only collisions, within ten retries; a free port
   * found by the
   * eleventh and last attempt is reported as a bind failure; and when all
   * eleven attempts collide the failure goes unreported.
   */
  lemma {:induction false} BindOutcomes(attempt: nat -> BindAttempt, known: set<u16>, k: nat)
    requires k <= BIND_RETRIES
    ensures var b := BindFrom(attempt, known, k);
            b.Bound? ==> 1 <= b.retries <= BIND_RETRIES - k && b.port !in known &&
                         attempt(BIND_RETRIES - b.retries) == Opened(b.port) &&
                         forall j :: k <= j < BIND_RETRIES - b.retries ==> attempt(j).Opened? && attempt(j).port in known
    ensures BindFrom(attempt, known, k) == BindFailed <==>
              (forall j :: k <= j < BIND_RETRIES ==> attempt(j).Opened? && attempt(j).port in known) &&
              attempt(BIND_RETRIES).Opened? && attempt(BIND_RETRIES).port !in known
    ensures BindFrom(attempt, known, k) == Exhausted <==>
              forall j :: k <= j <= BIND_RETRIES ==> attempt(j).Opened? && attempt(j).port in known
    decreases BIND_RETRIES - k
  {
    if k < BIND_RETRIES && attempt(k).Opened? && attempt(k).port in known {
      BindOutcomes(attempt, known, k + 1);
    }
  }

  // ---------------------------------------------------------------------------
  // main

  /** Parsed command line: -c, -s, -p, -i, -l (0 for an absent port). */
  datatype Options = Options(noArguments: bool, client: Option<seq<byte>>, server: Option<string>,
                             port: u16, state: Option<u32>, local: Option<string>)

  datatype Config = Config(client: seq<byte>, server: string, port: u16, state: u32)

  /**
   * The checks of `main` before the bind loop: client and server are
   * required; without a port the portmapper is asked, and no port exits
   * with 1; an unresolvable local address exits with 1. The state defaults
   * to the magic one.
   */
  function Setup(o: Options, maps: seq<Portmap.Pmap>, localLookup: seq<SockAddr>): (r: Result<Config>)
    ensures r.Failure? ==> r.code == 1
    ensures r.Failure? <==>
              o.client.None? || o.server.None? ||
              (o.port == 0 && Portmap.FirstStatdPort(maps) % 0x1_0000 == 0) ||
              (o.local.Some? && localLookup == [])
    ensures r.Success? ==>
              r.value.client == o.client.value && r.value.server == o.server.value &&
              r.value.port == (if o.port != 0 then o.port else Portmap.FirstStatdPort(maps) % 0x1_0000) &&
              r.value.state == o.state.GetOr(MAGIC_NSM_STATE) && r.value.port != 0
  {
    if o.client.None? || o.server.None? then Failure(1)
    else
      var port := if o.port != 0 then o.port else Portmap.FirstStatdPort(maps) % 0x1_0000;
      if port == 0 then Failure(1)
      else if o.local.Some? && localLookup == [] then Failure(1)
      else Success(Config(o.client.value, o.server.value, port, o.state.GetOr(MAGIC_NSM_STATE)))
  }

  /**
   * `main` after option parsing: the value it returns (0 with no arguments
   * at all, 1 for the failure exits, otherwise the result of the clearing).
   */
  method Run(o: Options, maps: seq<Portmap.Pmap>, localLookup: seq<SockAddr>,
             attempt: nat -> BindAttempt, known: set<u16>, first: Exchange, second: Exchange)
    returns (status: int)
    requires o.client.Some? ==> |o.client.value| <= MAX_NAME_LEN
    ensures o.noArguments ==> status == 0
    ensures !o.noArguments && Setup(o, maps, localLookup).Failure? ==> status == 1
    ensures !o.noArguments && Setup(o, maps, localLookup).Success? ==>
              var c := Setup(o, maps, localLookup).value;
              match BindFrom(attempt, known, 0)
              case SocketError => status == 1
              case BindFailed => status == 1
              case Bound(_, _) => status == ClearResult(c.state, first, second)
              case Exhausted => status == ClearResult(c.state, first, second)
  {
    if o.noArguments {
      return 0;
    }
    if o.client.None? || o.server.None? {
      return 1;
    }
    var port := o.port;
    if port == 0 {
      var p := Portmap.GetStatdPort(maps);
      port := p % 0x1_0000;
      if port == 0 {
        return 1;
      }
    }
    if o.local.Some? && localLookup == [] {
      return 1;
    }
    var state := o.state.GetOr(MAGIC_NSM_STATE);
    assert Setup(o, maps, localLookup) == Success(Config(o.client.value, o.server.value, port, state));
    var b := BindSocket(attempt, known);
    if b.SocketError? || b.BindFailed? {
      return 1;
    }
    var tried, sent;
    status, tried, sent := ClearLocks(ServerInfo(o.server.value, port), o.client.value, state, first, second);
  }
}

=== FILE: fork_enter.dfy ===
/**
 * The parts of `fork_enter` that decide things: the ELF identification of
 * a file (magic, then class byte), the retried container-create ioctl, and
 * the switch to the 32-bit personality for containers whose init is a
 * 32-bit program (the x86_64 build).
 */
module ForkEnter {
  import opened Xdr

  /** The ELF header as the tool reads it: 16 ident bytes, type and machine. */
  const ELF_HDR_BYTES: nat := 20
  /** "\177ELF" and the "\177OLF" variant accepted beside it. */
  const ELFMAG: seq<byte> := [0x7f, 0x45, 0x4c, 0x46]
  const OLFMAG: seq<byte> := [0x7f, 0x4f, 0x4c, 0x46]
  const ELFCLASS32: byte := 1
  const ELFCLASS64: byte := 2

  /** The classification: elf_none, elf_32, elf_64. */
  const ELF_NONE: int := 0
  const ELF_32: int := 1
  const ELF_64: int := 2

  /** `ENVRETRY`: retries after the first ioctl. */
  const ENVRETRY: nat := 3
  const EBUSY: int := 16
  /** The flag asking the create ioctl to enter the container. */
  const VE_ENTER: bv32 := 4
  const PER_LINUX32: bv32 := 0x0008

  // ---------------------------------------------------------------------------
  // ELF identification

  /** `check_elf_magic`: 0 for either accepted magic, -1 otherwise. */
  function CheckElfMagic(buf: seq<byte>): (r: int)
    requires |buf| >= 4
    ensures r == 0 || r == -1
    ensures r == 0 <==> buf[0] == 0x7f && (buf[1] == 'E' as byte || buf[1] == 'O' as byte) &&
                        buf[2] == 'L' as byte && buf[3] == 'F' as byte
  {
    if buf[..4] != ELFMAG && buf[..4] != OLFMAG then -1 else 0
  }

  /**
   * What the file system says about a path: whether `stat` succeeds, the
   * file is regular, `open` succeeds and `read` fails, and the file's bytes.
   */
  datatype FileView = FileView(statOk: bool, regular: bool, openOk: bool, readFails: bool,
                               contents: seq<byte>)

  /** `get_arch_from_elf`: -1 for a file that cannot be read as an ELF header. */
  function GetArchFromElf(f: FileView): (r: int)
    ensures r in {-1, ELF_NONE, ELF_32, ELF_64}
    ensures r != -1 <==> f.statOk && f.regular && f.openOk && !f.readFails &&
                         |f.contents| >= ELF_HDR_BYTES && CheckElfMagic(f.contents) == 0
    ensures r == ELF_32 <==> r != -1 && f.contents[4] == ELFCLASS32
    ensures r == ELF_64 <==> r != -1 && f.contents[4] == ELFCLASS64
  {
    if !f.statOk || !f.regular || !f.openOk then -1
    else
      // read asks for the header's size and gets at most what the file holds
      var nbytes := if f.readFails then -1
                    else if |f.contents| < ELF_HDR_BYTES then |f.contents| else ELF_HDR_BYTES;
      if nbytes < ELF_HDR_BYTES then -1
      else
        var hdr := f.contents[..ELF_HDR_BYTES];
        if CheckElfMagic(hdr) != 0 then -1
        else if hdr[4] == ELFCLASS32 then ELF_32
        else if hdr[4] == ELFCLASS64 then ELF_64
        else ELF_NONE
  }

  /** Only the first five bytes of a readable regular file decide its class. */
  lemma ArchDependsOnIdentOnly(f: FileView, g: FileView)
    requires f.statOk && f.regular && f.openOk && !f.readFails
    requires g.statOk && g.regular && g.openOk && !g.readFails
    requires |f.contents| >= ELF_HDR_BYTES && |g.contents| >= ELF_HDR_BYTES
    requires f.contents[..5] == g.contents[..5]
    ensures GetArchFromElf(f) == GetArchFromElf(g)
  {
    assert forall i :: 0 <= i < 5 ==> f.contents[i] == f.contents[..5][i] == g.contents[i];
  }

  // ---------------------------------------------------------------------------
  // Personality

  datatype PersonalityResult = PersonalityResult(code: int, persona: bv32)

  /**
   * `set_personality32`: when /sbin/init (`init`) is a 32-bit ELF program,
   * the current personality OR-ed with PER_LINUX32 is set; `setOk` says
   * whether the kernel accepts it. Otherwise nothing changes.
   */
  function SetPersonality32(init: FileView, current: bv32, setOk: bool): (r: PersonalityResult)
    ensures GetArchFromElf(init) != ELF_32 ==> r == PersonalityResult(0, current)
    ensures GetArchFromElf(init) == ELF_32 && !setOk ==> r == PersonalityResult(-1, current)
    ensures GetArchFromElf(init) == ELF_32 && setOk ==>
              r.code == 0 && r.persona & PER_LINUX32 == PER_LINUX32 &&
              r.persona & !PER_LINUX32 == current & !PER_LINUX32
  {
    if GetArchFromElf(init) != ELF_32 then PersonalityResult(0, current)
    else
      var per := current | PER_LINUX32;
      if !setOk then PersonalityResult(-1, current) else PersonalityResult(0, per)
  }

  /** Setting the 32-bit personality twice is the same as setting it once. */
  lemma SetPersonality32Idempotent(init: FileView, current: bv32)
    ensures var once := SetPersonality32(init, current, true).persona;
            SetPersonality32(init, once, true).persona == once
  {
  }

  // ---------------------------------------------------------------------------
  // The create ioctl

  /** What one `ioctl` call returns, with the `errno` it leaves. */
  datatype IoctlResult = IoctlResult(ret: int, errno: int)

  /** A failure that makes the loop try again, if retries are left. */
  predicate Busy(res: IoctlResult)
  {
    res.ret < 0 && res.errno == EBUSY
  }

  /**
   * `vz_env_create_ioctl`. `ioctl(k)` is the result of the (k+1)-th call;
   * `init`, `persona` and `setOk` are what the personality switch sees.
   * Returns the last call's result, the number of calls and of one-second
   * sleeps, whether the supplementary groups were cleared and the
   * personality afterwards.
   */
  method VzEnvCreateIoctl(ioctl: nat -> IoctlResult, flags: bv32, init: FileView, persona: bv32, setOk: bool)
    returns (errcode: int, calls: nat, sleeps: nat, groupsCleared: bool, newPersona: bv32)
    ensures 1 <= calls <= ENVRETRY + 1 && sleeps == calls - 1
    ensures errcode == ioctl(calls - 1).ret
    ensures forall j :: 0 <= j < calls - 1 ==> Busy(ioctl(j))
    ensures calls <= ENVRETRY ==> !Busy(ioctl(calls - 1))
    ensures groupsCleared <==> errcode >= 0 && flags & VE_ENTER != 0
    ensures newPersona == if groupsCleared then SetPersonality32(init, persona, setOk).persona else persona
  {
    var retry: nat := 0;
    calls, sleeps := 0, 0;
    while true
      invariant retry == calls <= ENVRETRY && sleeps == (if calls == 0 then 0 else calls - 1)
      invariant forall j :: 0 <= j < calls ==> Busy(ioctl(j))
      decreases ENVRETRY - retry
    {
      if retry != 0 {
        sleeps := sleeps + 1;
      }
      var res := ioctl(calls);
      calls := calls + 1;
      errcode := res.ret;
      if !(errcode < 0 && res.errno == EBUSY) {
        break;
      }
      // retry++ < ENVRETRY: the test sees the old value
      if !(retry < ENVRETRY) {
        break;
      }
      retry := retry + 1;
    }
    groupsCleared := errcode >= 0 && flags & VE_ENTER != 0;
    newPersona := persona;
    if groupsCleared {
      var p := SetPersonality32(init, persona, setOk);
      newPersona := p.persona;
    }
  }
}

=== FILE: net.dfy ===
/**
 * What the tools see of the network and of the C library, as values. Each
 * call that reaches the outside world (name resolution, `sendto`, `poll` and
 * `recv`, `bindresvport` with `getservbyport`) is replaced by an input that
 * says how that call turned out.
 */
module Net {
  import opened Xdr

  /** AF_INET, AF_INET6, or anything else (AF_UNSPEC for a zeroed address). */
  datatype Family = Inet | Inet6 | OtherFamily

  /** A socket address: family, address bytes and port (host order). */
  datatype SockAddr = SockAddr(family: Family, host: seq<byte>, port: u16)

  datatype Datagram = Datagram(dest: SockAddr, payload: seq<byte>)

  /** Bytes of the receive buffer: 256 32-bit words. */
  const RECV_BUF_BYTES: nat := 1024

  /** How waiting for the reply ended. */
  datatype RecvOutcome =
    | PollFails                     // poll() did not report one ready descriptor
    | RecvFails                     // recv() returned a negative count
    | Arrived(datagram: seq<byte>)  // a datagram was there

  /** What `recv` stores: a datagram longer than the buffer is cut short. */
  function Received(datagram: seq<byte>): (s: seq<byte>)
    ensures |s| <= RECV_BUF_BYTES && |s| <= |datagram|
    ensures s == datagram[..|s|]
    ensures |s| < |datagram| ==> |s| == RECV_BUF_BYTES
  {
    if |datagram| <= RECV_BUF_BYTES then datagram else datagram[..RECV_BUF_BYTES]
  }

  /**
   * How one notification exchange turns out: the addresses name resolution
   * returns (empty when it fails), whether `sendto` succeeds, and what the
   * wait for the reply yields.
   */
  datatype Exchange = Exchange(lookup: seq<SockAddr>, sendOk: bool, reply: RecvOutcome)

  /**
   * One pass of a bind loop: `socket` fails, or it succeeds and `port` is
   * the local port `getservbyport` is then asked about, whatever
   * `bindresvport` (whose result the tools ignore) left in the address.
   */
  datatype BindAttempt = SocketFails | Opened(port: u16)
}

=== FILE: notify.dfy ===
/**
 * The `notify` tool: one SM_NOTIFY exchange per call of `notify_host`, a
 * transaction id kept across calls, round-robin over the server's resolved
 * addresses, and the driver's option handling, bind loop and forced sweep.
 */
module Notify {
  import opened Xdr
  import opened Rpc
  import opened Net
  import opened Wrappers
  import Portmap

  /** `msgbuf` is MAXMSGSIZE = 256 words. */
  const MSG_BUF_BYTES: nat := 1024
  /** The longest name whose call still fits the buffer: 48 + 976 = 1024. */
  const MAX_NAME_LEN: nat := 976
  const UINT_MAX: int := 0xFFFF_FFFF

  // ---------------------------------------------------------------------------
  // Building the call

  /**
   * The packet-building part of `notify_host`: clear the buffer, write the
   * header words through the pointer `p`, copy the name without its
   * terminator, step over the padding and write the state.
   */
  method EncodeCall(xid: u32, clientName: seq<byte>, state: u32) returns (pkt: seq<byte>)
    requires |clientName| <= MAX_NAME_LEN
    ensures pkt == CallPacket(xid, clientName, state)
  {
    var msgbuf := new byte[MSG_BUF_BYTES];
    Clear(msgbuf);
    var len := |clientName|;
    var p := WriteCallHead(msgbuf, xid, len);
    ghost var w := Words(CallWords(xid, len));
    Emit(msgbuf, 4 * p, w, clientName);
    SkipBytes(msgbuf, w + clientName, Pad(len));
    p := p + (len + 3) / 4;
    w := w + clientName + Zeros(Pad(len));
    Emit(msgbuf, 4 * p, w, Be32(state));
    p := p + 1;
    w := w + Be32(state);
    assert msgbuf[..4 * p] == w;
    pkt := msgbuf[..4 * p];
  }

  /** The eleven header stores of `notify_host`, from the start of a cleared buffer. */
  method WriteCallHead(msgbuf: array<byte>, xid: u32, len: u32) returns (p: nat)
    requires msgbuf.Length == MSG_BUF_BYTES && Filled(msgbuf, [])
    modifies msgbuf
    ensures p == 11 && Filled(msgbuf, Words(CallWords(xid, len)))
  {
    // xid, message type and RPC version, before the address is chosen
    var start := [xid, CALL, RPC_VERSION];
    EmitWords(msgbuf, 0, [], start);
    assert [] + start == start;
    // program, version, procedure, then AUTH_NONE credential and verifier and the name length
    EmitWords(msgbuf, 3, start, [NSM_PROGRAM, NSM_VERSION, SM_NOTIFY, AUTH_NONE, 0, AUTH_NONE, 0, len]);
    assert start + [NSM_PROGRAM, NSM_VERSION, SM_NOTIFY, AUTH_NONE, 0, AUTH_NONE, 0, len] == CallWords(xid, len);
    p := 11;
  }

  // ---------------------------------------------------------------------------
  // Checking the reply

  /**
   * The code `recv_reply` returns: 0 when `poll` reports no data (a timeout
   * counts as success), -1 when `recv` fails, otherwise 0 exactly when the
   * received bytes hold a successful reply head.
   */
  function ReplyCode(reply: RecvOutcome): int
  {
    match reply
    case PollFails => 0
    case RecvFails => -1
    case Arrived(d) => if IsSuccessReply(Received(d)) then 0 else -1
  }

  /**
   * `recv_reply`: receives into a buffer that is not cleared first, skips
   * the xid, compares words 1 to 5 with REPLY, MSG_ACCEPTED, AUTH_NONE, 0
   * and SUCCESS, and only then checks that six words arrived.
   */
  method RecvReply(reply: RecvOutcome) returns (code: int)
    ensures code == ReplyCode(reply)
    ensures code == 0 <==> reply.PollFails? ||
                           (reply.Arrived? && |Received(reply.datagram)| >= REPLY_HEAD_BYTES &&
                            DecodeReplyHead(Received(reply.datagram)).value.msgType == REPLY &&
                            IsSuccess(DecodeReplyHead(Received(reply.datagram)).value))
  {
    if reply.PollFails? {
      return 0;
    }
    if reply.RecvFails? {
      return -1;
    }
    var msgbuf := new byte[MSG_BUF_BYTES];
    var data := Received(reply.datagram);
    var res := |data|;
    Store(msgbuf, 0, data);
    var end := res / 4;
    if res >= REPLY_HEAD_BYTES {
      forall i | 0 <= i < 6
        ensures WordOf(msgbuf, i) == WordAt(data, i)
      {
        assert msgbuf[4 * i .. 4 * i + 4] == data[4 * i .. 4 * i + 4];
      }
    }
    if WordOf(msgbuf, 1) != REPLY || WordOf(msgbuf, 2) != MSG_ACCEPTED ||
       WordOf(msgbuf, 3) != AUTH_NONE || WordOf(msgbuf, 4) != 0 ||
       WordOf(msgbuf, 5) != SUCCESS {
      return -1;
    }
    var p := 6;
    if p > end {
      return -1;
    }
    return 0;
  }

  /** A reply is judged without looking at its xid. */
  lemma ReplyXidIgnored(h: ReplyHead, xid: u32)
    ensures ReplyCode(Arrived(ReplyPacket(h))) == ReplyCode(Arrived(ReplyPacket(h.(xid := xid))))
  {
    ReplyRoundTrip(h);
    ReplyRoundTrip(h.(xid := xid));
  }

  /** A well-formed reply is accepted exactly when it says accepted and SUCCESS. */
  lemma ReplyAcceptance(h: ReplyHead)
    ensures ReplyCode(Arrived(ReplyPacket(h))) == (if IsSuccess(h) then 0 else -1)
  {
    ReplyRoundTrip(h);
  }

  // ---------------------------------------------------------------------------
  // Addresses

  /** `smn_get_port`: the port of an AF_INET or AF_INET6 address, 0 for any other family. */
  function GetPort(a: SockAddr): (p: u16)
    ensures a.family.OtherFamily? ==> p == 0
    ensures !a.family.OtherFamily? ==> p == a.port
  {
    match a.family
    case Inet => a.port
    case Inet6 => a.port
    case OtherFamily => 0
  }

  /**
   * `smn_set_port`: only AF_INET and AF_INET6 addresses get the port, which
   * `smn_get_port` then reads back; the address itself is kept.
   */
  function SetPort(a: SockAddr, port: u16): (r: SockAddr)
    ensures r.family == a.family && r.host == a.host
    ensures a.family != OtherFamily ==> GetPort(r) == port
    ensures a.family == OtherFamily ==> r == a && GetPort(r) == 0
  {
    match a.family
    case Inet => a.(port := port)
    case Inet6 => a.(port := port)
    case OtherFamily => a
  }

  /**
   * The reordering of the resolved list after a send: with one address the
   * list is kept, otherwise the first moves to the end.
   */
  function Rotate<T>(list: seq<T>): (r: seq<T>)
    ensures |r| == |list|
  {
    if |list| <= 1 then list else list[1..] + [list[0]]
  }

  /** The reordering loses no address and moves only the first one. */
  lemma RotatePermutes<T>(list: seq<T>)
    ensures |Rotate(list)| == |list| && multiset(Rotate(list)) == multiset(list)
    ensures |list| > 1 ==> Rotate(list)[..|list| - 1] == list[1..] && Rotate(list)[|list| - 1] == list[0]
  {
    if |list| > 1 {
      assert list == [list[0]] + list[1..];
    }
  }

  /** The list after `k` sends. */
  function RotateN<T>(list: seq<T>, k: nat): seq<T>
  {
    if k == 0 then list else Rotate(RotateN(list, k - 1))
  }

  /**
   * Round robin: for `k` up to the length of the list, after `k` sends the
   * list is the original turned by `k` places, so the (k+1)-th send goes to
   * the k-th address; after as many sends as addresses it is back as it was.
   */
  lemma {:induction false} RoundRobin<T>(list: seq<T>, k: nat)
    requires k <= |list|
    ensures RotateN(list, k) == list[k..] + list[..k]
    ensures k < |list| ==> RotateN(list, k)[0] == list[k]
    ensures k == |list| ==> RotateN(list, k) == list
  {
    if k == 0 {
      assert list[0..] + list[..0] == list;
    } else {
      RoundRobin(list, k - 1);
      RotateTurned(list, k - 1);
      assert RotateN(list, k) == Rotate(RotateN(list, k - 1));
      if k == |list| {
        assert list[k..] + list[..k] == list;
      } else {
        assert (list[k..] + list[..k])[0] == list[k];
      }
    }
  }

  /** Sends compose: `a` sends then `b` sends are `a + b` sends. */
  lemma {:induction false} RotateNAdd<T>(list: seq<T>, a: nat, b: nat)
    ensures RotateN(list, a + b) == RotateN(RotateN(list, a), b)
  {
    if b > 0 {
      RotateNAdd(list, a, b - 1);
    }
  }

  /** The choice of address repeats with a period of the list's length. */
  lemma RoundRobinPeriod<T>(list: seq<T>, k: nat)
    ensures RotateN(list, |list| + k) == RotateN(list, k)
  {
    RotateNAdd(list, |list|, k);
    RoundRobin(list, |list|);
  }

  /** Rotating the list turned by `j` places gives it turned by `j + 1`. */
  lemma RotateTurned<T>(list: seq<T>, j: nat)
    requires j < |list|
    ensures Rotate(list[j..] + list[..j]) == if j + 1 == |list| then list else list[j + 1..] + list[..j + 1]
  {
    var prev := list[j..] + list[..j];
    if |list| > 1 {
      assert prev[0] == list[j];
      assert prev[1..] == list[j + 1..] + list[..j];
      assert list[..j] + [list[j]] == list[..j + 1];
      if j + 1 == |list| {
        assert list[..j + 1] == list;
      }
    }
  }

  // ---------------------------------------------------------------------------
  // Per-server state and the transaction counter

  /** The part of `struct nsm_host` that the notify path reads and writes. */
  class NsmHost {
    const name: string
    /** The resolved addresses; empty stands for a NULL list. */
    var ai: seq<SockAddr>
    var addr: SockAddr
    var xid: u32

    /** A host record as `main` prepares it: cleared, with its name set. */
    constructor (name: string)
      ensures this.name == name && ai == [] && xid == 0
      ensures addr == SockAddr(OtherFamily, [], 0)
    {
      this.name := name;
      ai := [];
      addr := SockAddr(OtherFamily, [], 0);
      xid := 0;
    }

    /**
     * The address choice of `notify_host`: the first resolved address is
     * used, with the port set, and moved to the end of a longer list.
     */
    method UseNextAddress(port: u16)
      requires ai != []
      modifies this`ai, this`addr
      ensures ai == Rotate(old(ai)) && addr == SetPort(old(ai)[0], port)
    {
      var first := ai[0];
      if |ai| > 1 {
        ai := ai[1..] + [first];
      }
      addr := SetPort(first, port);
    }
  }

  /** `xid++` on an unsigned int: the successor, wrapping from UINT_MAX to 0. */
  function NextXid(x: u32): (y: u32)
    ensures (y as int - x as int) % 0x1_0000_0000 == 1
  {
    if x == UINT_MAX then 0 else x + 1
  }

  /** The increment keeps the low 32 bits of the sum. */
  lemma NextXidWraps(x: u32)
    ensures NextXid(x) == Wrap32(x + 1)
    ensures NextXid(x) != x
  {
  }

  /** Holds the counter that `notify_host` keeps in a function-local static. */
  class Notifier {
    var xid: u32

    constructor ()
      ensures xid == 0
    {
      xid := 0;
    }

    /**
     * The transaction id of `notify_host`: the counter is seeded with
     * `seed` while it is 0, and a host without an id takes the
     * counter's value, which then goes up by one.
     */
    method AssignXid(server: NsmHost, seed: u32)
      modifies this, server`xid
      ensures var seeded := if old(xid) == 0 then seed else old(xid);
              if old(server.xid) == 0 then server.xid == seeded && xid == NextXid(seeded)
              else server.xid == old(server.xid) && xid == seeded
    {
      if xid == 0 {
        xid := seed;
      }
      if server.xid == 0 {
        server.xid := xid;
        xid := NextXid(xid);
      }
    }

    /**
     * `notify_host`. `seed` is `getpid() + time(NULL)` cut to 32 bits by
     * the assignment to the unsigned counter; `ex` says
     * how resolution, `sendto` and the wait for the reply turn out.
     * `datagram` is what is handed to `sendto`.
     */
    method NotifyHost(server: NsmHost, serverPort: u16, clientName: seq<byte>, state: u32,
                      seed: u32, ex: Exchange)
      returns (r: int, datagram: Option<Datagram>)
      requires |clientName| <= MAX_NAME_LEN
      modifies this, server
      ensures var seeded := if old(xid) == 0 then seed else old(xid);
              if old(server.xid) == 0 then server.xid == seeded && xid == NextXid(seeded)
              else server.xid == old(server.xid) && xid == seeded
      ensures var list := if old(server.ai) == [] then ex.lookup else old(server.ai);
              if list == [] then
                r == -1 && datagram == None && server.ai == [] && server.addr == old(server.addr)
              else
                server.ai == Rotate(list) && server.addr == SetPort(list[0], serverPort) &&
                datagram == Some(Datagram(server.addr, CallPacket(server.xid, clientName, state))) &&
                r == (if ex.sendOk then ReplyCode(ex.reply) else -2)
      ensures r == CallCode(ex, old(server.ai) != [])
      ensures server.ai != [] <==> old(server.ai) != [] || ex.lookup != []
    {
      AssignXid(server, seed);
      if server.ai == [] {
        server.ai := ex.lookup;
        if server.ai == [] {
          return -1, None;
        }
      }
      server.UseNextAddress(serverPort);
      var pkt := EncodeCall(server.xid, clientName, state);
      datagram := Some(Datagram(server.addr, pkt));
      if !ex.sendOk {
        return -2, datagram;
      }
      r := RecvReply(ex.reply);
    }

    /**
     * One call of the forced sweep, seen through what the sweep uses: the
     * code `notify_host` returns, whether the host's address list is filled
     * afterwards, and the datagram sent, which a server reads as announcing
     * the client with the given state.
     */
    method SweepStep(server: NsmHost, serverPort: u16, clientName: seq<byte>, state: u32,
                     seed: u32, ex: Exchange, ghost sent: seq<Datagram>)
      returns (r: int, ghost sent': seq<Datagram>)
      requires |clientName| <= MAX_NAME_LEN
      requires SweepAnnounces(sent, clientName) && state as int == 2 * |sent| + 1
      modifies this, server
      ensures r == CallCode(ex, old(server.ai) != [])
      ensures server.ai != [] <==> old(server.ai) != [] || ex.lookup != []
      ensures if old(server.ai) == [] && ex.lookup == [] then sent' == sent
              else |sent'| == |sent| + 1 && sent'[..|sent|] == sent
      ensures SweepAnnounces(sent', clientName)
    {
      var datagram;
      r, datagram := NotifyHost(server, serverPort, clientName, state, seed, ex);
      sent' := sent;
      if datagram.Some? {
        CallRoundTrip(server.xid, clientName, state);
        SweepAnnouncesSnoc(sent, datagram.value, clientName);
        sent' := sent + [datagram.value];
      }
    }
  }

  /**
   * `d` carries an SM_NOTIFY call that the status monitor reads as saying
   * that `name` restarted with state `state`.
   */
  predicate Announces(d: Datagram, name: seq<byte>, state: int)
  {
    var m := DecodeCall(d.payload);
    m.Some? && m.value.msgType == CALL && m.value.prog == NSM_PROGRAM && m.value.proc == SM_NOTIFY &&
    m.value.monName == name && m.value.state as int == state
  }

  // ---------------------------------------------------------------------------
  // The forced sweep

  /** Result of one `notify_host` call once the host's addresses are known. */
  function SendCode(ex: Exchange): int
  {
    if ex.sendOk then ReplyCode(ex.reply) else -2
  }

  /** Result of one call; `resolved` says whether the host's list was already filled. */
  function CallCode(ex: Exchange, resolved: bool): int
  {
    if !resolved && ex.lookup == [] then -1 else SendCode(ex)
  }

  /**
   * The result of the call for each state of the sweep: only the call for
   * state 1 can find the host's list empty.
   */
  function SweepCodes(world: u32 -> Exchange, resolved: bool): u32 -> int
  {
    (s: u32) => CallCode(world(s), resolved || s != 1)
  }

  datatype SweepEnd = SweepEnd(code: int, calls: nat)

  /**
   * The forced loop from state `i` on: odd states in ascending order, up to
   * but excluding UINT_MAX, stopping at the first negative result. `code`
   * gives the result of the call for each state.
   */
  function SweepFrom(code: u32 -> int, i: nat): (e: SweepEnd)
    requires i < UINT_MAX
    ensures e.calls >= 1
    decreases UINT_MAX - i
  {
    if code(i) < 0 || i + 2 >= UINT_MAX then SweepEnd(code(i), 1)
    else var rest := SweepFrom(code, i + 2); SweepEnd(rest.code, rest.calls + 1)
  }

  /**
   * The sweep stops at the first state with a negative result: if the calls
   * for the first `m` states succeed and the next one fails, the sweep makes
   * exactly `m + 1` calls and returns that failure.
   */
  lemma {:induction false} SweepStopsAtFirstFailure(code: u32 -> int, i: nat, m: nat)
    requires i + 2 * m < UINT_MAX
    requires forall j :: 0 <= j < m ==> code(i + 2 * j) >= 0
    requires code(i + 2 * m) < 0
    ensures SweepFrom(code, i) == SweepEnd(code(i + 2 * m), m + 1)
    decreases m
  {
    if m > 0 {
      assert code(i + 2 * 0) >= 0;
      forall j | 0 <= j < m - 1
        ensures code(i + 2 + 2 * j) >= 0
      {
        assert code(i + 2 * (j + 1)) >= 0;
        assert i + 2 * (j + 1) == i + 2 + 2 * j;
      }
      assert i + 2 + 2 * (m - 1) == i + 2 * m;
      SweepStopsAtFirstFailure(code, i + 2, m - 1);
    }
  }

  /**
   * A server that follows states 1, 3 and 5 and then rejects 7 ends the
   * sweep after exactly four notifications, with that rejection.
   */
  lemma SweepExample(world: u32 -> Exchange)
    requires world(1).lookup != [] && SendCode(world(1)) == 0
    requires SendCode(world(3)) == 0 && SendCode(world(5)) == 0 && SendCode(world(7)) == -1
    ensures SweepFrom(SweepCodes(world, false), 1) == SweepEnd(-1, 4)
  {
    var code := SweepCodes(world, false);
    assert code(1) == 0 && code(3) == 0 && code(5) == 0 && code(7) == -1;
    SweepStopsAtFirstFailure(code, 1, 3);
  }

  /** The j-th datagram of `sent` announces `name` with state 2j + 1. */
  predicate SweepAnnounces(sent: seq<Datagram>, name: seq<byte>)
  {
    forall j :: 0 <= j < |sent| ==> Announces(sent[j], name, 2 * j + 1)
  }

  lemma SweepAnnouncesSnoc(sent: seq<Datagram>, d: Datagram, name: seq<byte>)
    requires SweepAnnounces(sent, name) && Announces(d, name, 2 * |sent| + 1)
    ensures SweepAnnounces(sent + [d], name)
  {
  }

  /**
   * The forced loop of `main`: `notify_host` with states 1, 3, 5, ... until
   * a call returns a negative value or the states run out. The C loop
   * counts with a signed int that overflows and is compared as unsigned;
   * here the states are the unsigned values that reach the wire. `calls`
   * is the number of `notify_host` calls made, `sent` the datagrams handed
   * to `sendto`: the j-th announces state 2j + 1, and only a failed first
   * resolution sends nothing.
   */
  method ForcedSweep(n: Notifier, host: NsmHost, port: u16, client: seq<byte>,
                     seed: u32, world: u32 -> Exchange)
    returns (result: int, ghost calls: nat, ghost sent: seq<Datagram>)
    requires |client| <= MAX_NAME_LEN
    modifies n, host
    ensures SweepEnd(result, calls) == SweepFrom(SweepCodes(world, old(host.ai) != []), 1)
    ensures |sent| == if old(host.ai) == [] && world(1).lookup == [] then 0 else calls
    ensures SweepAnnounces(sent, client)
  {
    ghost var resolved := host.ai != [];
    ghost var code := SweepCodes(world, resolved);
    ghost var silent := !resolved && world(1).lookup == [];
    var i := 1;
    calls := 0;
    sent := [];
    result := 0;
    while i < UINT_MAX
      invariant 1 <= i <= UINT_MAX + 1 && i == 2 * calls + 1
      invariant |sent| == calls
      invariant silent ==> calls == 0
      invariant SweepAnnounces(sent, client)
      invariant (host.ai != []) == (resolved || i != 1)
      invariant i < UINT_MAX ==>
                  SweepFrom(code, 1).code == SweepFrom(code, i).code &&
                  SweepFrom(code, 1).calls == SweepFrom(code, i).calls + calls
      invariant i >= UINT_MAX ==> SweepFrom(code, 1) == SweepEnd(result, calls)
      decreases UINT_MAX - i
    {
      var r;
      r, sent := n.SweepStep(host, port, client, i, seed, world(i), sent);
      assert r == code(i);
      calls := calls + 1;
      result := r;
      if r < 0 {
        break;
      }
      i := i + 2;
    }
  }

  // ---------------------------------------------------------------------------
  // The bind loop

  datatype BindOutcome =
    | Bound(port: u16, attempts: nat)  // kept: no service is registered for `port`
    | SocketError                      // socket() failed: exit(1)
    | BindFailed                       // "Failed to bind RPC socket": exit(1)
    | StillTrying                      // the attempts given ran out; the C loop goes on

  /**
   * What the loop does from attempt `k` on, given at most `fuel` attempts:
   * sockets whose port is in `known` (the service database) are closed and
   * another is made.
   */
  function ScanPorts(attempt: nat -> BindAttempt, known: set<u16>, k: nat, fuel: nat): BindOutcome
    decreases fuel - k
  {
    if k >= fuel then StillTrying
    else match attempt(k)
      case SocketFails => SocketError
      case Opened(p) => if p in known then ScanPorts(attempt, known, k + 1, fuel) else Bound(p, k + 1)
  }

  /**
   * The bind loop of `main`. Its `retries` counter is declared inside the
   * loop body, so every pass starts it again at 10; after one collision it
   * is 9 and the failure exit is never taken. `fuel` bounds the passes the
   * model makes.
   */
  method BindSocket(attempt: nat -> BindAttempt, known: set<u16>, fuel: nat) returns (out: BindOutcome)
    ensures out == ScanPorts(attempt, known, 0, fuel)
  {
    var k := 0;
    while true
      invariant k <= fuel
      invariant ScanPorts(attempt, known, k, fuel) == ScanPorts(attempt, known, 0, fuel)
      decreases fuel - k
    {
      if k == fuel {
        return StillTrying;
      }
      var retries := 10;
      match attempt(k) {
        case SocketFails =>
          return SocketError;
        case Opened(p) =>
          if p in known {
            retries := retries - 1;
          } else {
            return Bound(p, k + 1);
          }
      }
      if retries == 0 {
        return BindFailed;
      }
      k := k + 1;
    }
  }

  /**
   * The loop never reports a bind failure, and it keeps a socket only when
   * the port asked about is outside `known`, after only collisions.
   */
  lemma {:induction false} ScanPortsSound(attempt: nat -> BindAttempt, known: set<u16>, k: nat, fuel: nat)
    ensures ScanPorts(attempt, known, k, fuel) != BindFailed
    ensures var b := ScanPorts(attempt, known, k, fuel);
            b.Bound? ==> b.port !in known && k + 1 <= b.attempts <= fuel &&
                         attempt(b.attempts - 1) == Opened(b.port) &&
                         forall j :: k <= j < b.attempts - 1 ==> attempt(j).Opened? && attempt(j).port in known
    decreases fuel - k
  {
    if k < fuel && attempt(k).Opened? && attempt(k).port in known {
      ScanPortsSound(attempt, known, k + 1, fuel);
    }
  }

  // ---------------------------------------------------------------------------
  // Options

  /**
   * Parsed command line: whether there were no arguments at all, then -c,
   * -d, -s, -p, -i, -l, -v, -f (0 for an absent number).
   */
  datatype Options = Options(noArguments: bool, client: Option<seq<byte>>, stateDir: Option<seq<byte>>, server: Option<string>,
                             port: u16, state: u32, local: Option<string>,
                             verbose: bool, forced: bool)

  /** What `main` goes on with once the options are checked. */
  datatype Config = Config(client: seq<byte>, server: string, port: u16, state: u32,
                           local: Option<string>, verbose: bool, forced: bool)

  /**
   * `get_statd_state` as far as it is modelled: a directory path over 1000
   * bytes (as `strlen` counts) gives 0, otherwise the value read from its
   * `state` file.
   */
  function StatdState(dir: seq<byte>, fileState: u32): (s: u32)
    ensures |dir| > 1000 ==> s == 0
  {
    if |dir| > 1000 then 0 else fileState
  }

  /**
   * The option checks of `main`: client and server are required; a state
   * directory, a non-zero state or -f is required; a state directory or a
   * non-zero state turns -f off; -f turns -v off. Failures exit with 1.
   */
  function Configure(o: Options, fileState: u32): (r: Result<Config>)
    ensures r.Failure? ==> r.code == 1
    ensures r.Failure? <==>
              o.client.None? || o.server.None? ||
              (o.stateDir.None? && o.state == 0 && !o.forced) ||
              (o.stateDir.Some? && StatdState(o.stateDir.value, fileState) == 0)
    ensures r.Success? ==>
              r.value.client == o.client.value && r.value.server == o.server.value &&
              r.value.port == o.port && r.value.local == o.local &&
              r.value.state == (if o.stateDir.Some? then StatdState(o.stateDir.value, fileState) else o.state) &&
              r.value.forced == (o.forced && o.stateDir.None? && o.state == 0) &&
              r.value.verbose == (o.verbose && !r.value.forced)
    ensures r.Success? ==> (r.value.forced <==> r.value.state == 0)
  {
    if o.client.None? || o.server.None? then Failure(1)
    else if o.stateDir.None? && o.state == 0 && !o.forced then Failure(1)
    else
      var state := if o.stateDir.Some? then StatdState(o.stateDir.value, fileState) else o.state;
      if o.stateDir.Some? && state == 0 then Failure(1)
      else
        var forced := if o.stateDir.Some? then false else o.forced;
        var forced' := if state != 0 && forced then false else forced;
        var verbose := if forced' && o.verbose then false else o.verbose;
        Success(Config(o.client.value, o.server.value, o.port, state, o.local, verbose, forced'))
  }

  /**
   * Everything `main` settles before it binds: the options, the port (asked
   * of the portmapper when none was given; the value is stored into an
   * unsigned short and 0 exits with 1) and the local address (an
   * unresolvable one exits with 1).
   */
  function Setup(o: Options, fileState: u32, maps: seq<Portmap.Pmap>, localLookup: seq<SockAddr>)
    : (r: Result<Config>)
    ensures r.Failure? ==> r.code == 1
    ensures r.Failure? <==>
              Configure(o, fileState).Failure? ||
              (o.port == 0 && Portmap.FirstStatdPort(maps) % 0x1_0000 == 0) ||
              (o.local.Some? && localLookup == [])
    ensures r.Success? ==> r.value.port != 0 && Configure(o, fileState).Success?
    ensures r.Success? && o.port != 0 ==> r.value == Configure(o, fileState).value
    ensures r.Success? && o.port == 0 ==>
              r.value.port == Portmap.FirstStatdPort(maps) % 0x1_0000 &&
              r.value == Configure(o, fileState).value.(port := r.value.port)
  {
    match Configure(o, fileState)
    case Failure(code) => Failure(code)
    case Success(c) =>
      var port := if c.port != 0 then c.port else Portmap.FirstStatdPort(maps) % 0x1_0000;
      if port == 0 then Failure(1)
      else if c.local.Some? && localLookup == [] then Failure(1)
      else Success(c.(port := port))
  }

  /**
   * `main` after option parsing. `None` stands for a bind loop still
   * running when the attempts given to the model are used up.
   */
  method Run(o: Options, fileState: u32, maps: seq<Portmap.Pmap>, localLookup: seq<SockAddr>,
             attempt: nat -> BindAttempt, known: set<u16>, fuel: nat,
             seed: u32, world: u32 -> Exchange)
    returns (status: Option<int>, ghost sent: seq<Datagram>)
    requires o.client.Some? ==> |o.client.value| <= MAX_NAME_LEN
    ensures o.noArguments ==> status == Some(0)
    ensures !o.noArguments && Setup(o, fileState, maps, localLookup).Failure? ==> status == Some(1)
    ensures !o.noArguments && Setup(o, fileState, maps, localLookup).Success? ==>
              var c := Setup(o, fileState, maps, localLookup).value;
              match ScanPorts(attempt, known, 0, fuel)
              case SocketError => status == Some(1)
              case StillTrying => status == None
              case BindFailed => false
              case Bound(_, _) =>
                if c.forced then
                  status == Some(SweepFrom(SweepCodes(world, false), 1).code) &&
                  SweepAnnounces(sent, c.client)
                else
                  status == Some(CallCode(world(c.state), false)) &&
                  |sent| == (if world(c.state).lookup == [] then 0 else 1) &&
                  (|sent| == 1 ==> Announces(sent[0], c.client, c.state as int))
  {
    sent := [];
    if o.noArguments {
      return Some(0), [];
    }
    var conf := Configure(o, fileState);
    if conf.Failure? {
      return Some(1), [];
    }
    var c := conf.value;
    if c.port == 0 {
      var p := Portmap.GetStatdPort(maps);
      c := c.(port := p % 0x1_0000);
      if c.port == 0 {
        return Some(1), [];
      }
    }
    if c.local.Some? && localLookup == [] {
      return Some(1), [];
    }
    assert c == Setup(o, fileState, maps, localLookup).value;
    var b := BindSocket(attempt, known, fuel);
    ScanPortsSound(attempt, known, 0, fuel);
    if b.SocketError? {
      return Some(1), [];
    }
    if b.StillTrying? {
      return None, [];
    }
    var host := new NsmHost(c.server);
    var n := new Notifier();
    var result: int;
    if !c.forced {
      var d;
      result, d := n.NotifyHost(host, c.port, c.client, c.state, seed, world(c.state));
      if d.Some? {
        CallRoundTrip(host.xid, c.client, c.state);
        sent := [d.value];
      }
    } else {
      ghost var calls;
      result, calls, sent := ForcedSweep(n, host, c.port, c.client, seed, world);
    }
    return Some(result), sent;
  }
}

=== FILE: portmap.dfy ===
/**
 * The search of a portmapper's registration list (the PMAPPROC_DUMP result
 * of section 3 of RFC 1833) for the UDP port of the status monitor. Both
 * tools carry the same `get_statd_port`.
 */
module Portmap {
  import opened Xdr
  import Rpc

  const IPPROTO_UDP: u32 := 17

  /** One registration: program, version, protocol and port. */
  datatype Pmap = Pmap(prog: u32, vers: u32, prot: u32, port: u32)

  /** A registration of the status monitor over UDP, whatever its version. */
  predicate IsStatdUdp(m: Pmap)
  {
    m.prog == Rpc.NSM_PROGRAM && m.prot == IPPROTO_UDP
  }

  /**
   * The port of the first status-monitor UDP registration of `list`, or 0
   * when there is none.
   */
  function FirstStatdPort(list: seq<Pmap>): (port: u32)
    ensures (forall i :: 0 <= i < |list| ==> !IsStatdUdp(list[i])) ==> port == 0
    ensures forall i | 0 <= i < |list| && IsStatdUdp(list[i]) ::
              (forall j :: 0 <= j < i ==> !IsStatdUdp(list[j])) ==> port == list[i].port
  {
    if list == [] then 0
    else if IsStatdUdp(list[0]) then list[0].port
    else FirstStatdPort(list[1..])
  }

  /**
   * Walks the list returned by `pmap_getmaps` (empty when the portmapper
   * could not be reached or has no registrations) entry by entry.
   */
  method GetStatdPort(list: seq<Pmap>) returns (port: u32)
    ensures port == FirstStatdPort(list)
  {
    if list == [] {
      return 0;
    }
    var i := 0;
    while i < |list|
      invariant 0 <= i <= |list|
      invariant forall j :: 0 <= j < i ==> !IsStatdUdp(list[j])
    {
      if IsStatdUdp(list[i]) {
        return list[i].port;
      }
      i := i + 1;
    }
    return 0;
  }
}

=== FILE: rpc.dfy ===
/**
 * The one ONC RPC exchange the tool performs: an SM_NOTIFY call to the
 * status monitor (NSM, program 100024 version 1, procedure 6) and the
 * fixed-size head of its reply. Layout from section 9 of RFC 5531 (call and
 * reply bodies) and section 10.1 (AUTH_NONE: flavor 0, empty body).
 */
module Rpc {
  import opened Xdr
  import opened Wrappers

  const CALL: u32 := 0
  const REPLY: u32 := 1
  const RPC_VERSION: u32 := 2
  const MSG_ACCEPTED: u32 := 0
  const AUTH_NONE: u32 := 0
  const SUCCESS: u32 := 0

  const NSM_PROGRAM: u32 := 100024
  const NSM_VERSION: u32 := 1
  const SM_NOTIFY: u32 := 6

  /** Bytes of the call before the name: 11 words, the last being the name length. */
  const CALL_HEAD_BYTES: nat := 44
  /** Minimum size of a reply the tools accept: six words. */
  const REPLY_HEAD_BYTES: nat := 24

  /**
   * The 11 words that open an SM_NOTIFY call: xid, CALL, RPC version 2,
   * program, version, procedure, AUTH_NONE credential and verifier (flavor
   * and zero length each), then the length of the monitored name.
   */
  function CallWords(xid: u32, nameLen: u32): (ws: seq<u32>)
    ensures |ws| == 11
  {
    [xid, CALL, RPC_VERSION, NSM_PROGRAM, NSM_VERSION, SM_NOTIFY,
     AUTH_NONE, 0, AUTH_NONE, 0, nameLen]
  }

  /**
   * The complete SM_NOTIFY call datagram: the header words, the name as an
   * XDR string (its bytes, zero padding to a 4-byte boundary) and the
   * 32-bit state.
   */
  function CallPacket(xid: u32, name: seq<byte>, state: u32): (pkt: seq<byte>)
    requires |name| < 0x1_0000_0000
    ensures |pkt| == 48 + 4 * ((|name| + 3) / 4)
    ensures |pkt| % 4 == 0
  {
    assert |name| + Pad(|name|) == 4 * ((|name| + 3) / 4);
    Words(CallWords(xid, |name|)) + name + Zeros(Pad(|name|)) + Be32(state)
  }

  /** A decoded call with empty authentication bodies. */
  datatype CallMsg = CallMsg(xid: u32, msgType: u32, rpcVers: u32,
                             prog: u32, vers: u32, proc: u32,
                             credFlavor: u32, verfFlavor: u32,
                             monName: seq<byte>, state: u32)

  /**
   * A mirror decoder, as the server side reads the call: fixed header,
   * empty credential and verifier bodies, an XDR string with zero padding,
   * then the state word, and nothing after it.
   */
  function DecodeCall(pkt: seq<byte>): Option<CallMsg>
  {
    if |pkt| < 48 || WordAt(pkt, 7) != 0 || WordAt(pkt, 9) != 0 then None
    else
      var len := WordAt(pkt, 10);
      var padded := 4 * ((len + 3) / 4);
      if |pkt| != 48 + padded then None
      else if pkt[CALL_HEAD_BYTES + len .. CALL_HEAD_BYTES + padded] != Zeros(padded - len) then None
      else Some(CallMsg(WordAt(pkt, 0), WordAt(pkt, 1), WordAt(pkt, 2),
                        WordAt(pkt, 3), WordAt(pkt, 4), WordAt(pkt, 5),
                        WordAt(pkt, 6), WordAt(pkt, 8),
                        pkt[CALL_HEAD_BYTES .. CALL_HEAD_BYTES + len],
                        WordAt(pkt, 11 + padded / 4)))
  }

  /** The first 11 words of a call packet are its header words. */
  lemma CallPacketHead(xid: u32, name: seq<byte>, state: u32, i: nat)
    requires |name| < 0x1_0000_0000 && i < 11
    ensures WordAt(CallPacket(xid, name, state), i) == CallWords(xid, |name|)[i]
  {
    var ws := CallWords(xid, |name|);
    var rest := name + Zeros(Pad(|name|)) + Be32(state);
    assert CallPacket(xid, name, state) == Words(ws) + rest;
    WordAtPrefix(Words(ws), rest, i);
    WordsAt(ws, i);
  }

  /** After the header come the name, its zero padding and the state word. */
  lemma CallPacketTail(xid: u32, name: seq<byte>, state: u32)
    requires |name| < 0x1_0000_0000
    ensures var pkt := CallPacket(xid, name, state);
            var padded := 4 * ((|name| + 3) / 4);
            pkt[CALL_HEAD_BYTES .. CALL_HEAD_BYTES + |name|] == name &&
            pkt[CALL_HEAD_BYTES + |name| .. CALL_HEAD_BYTES + padded] == Zeros(padded - |name|) &&
            WordAt(pkt, 11 + padded / 4) == state
  {
    var pkt := CallPacket(xid, name, state);
    var len := |name|;
    var padded := 4 * ((len + 3) / 4);
    var head := Words(CallWords(xid, len));
    assert |head| == CALL_HEAD_BYTES && Pad(len) == padded - len;
    assert pkt == head + name + Zeros(Pad(len)) + Be32(state);
    assert pkt[CALL_HEAD_BYTES .. CALL_HEAD_BYTES + len] == name;
    assert pkt[CALL_HEAD_BYTES + len .. CALL_HEAD_BYTES + padded] == Zeros(padded - len);
    assert pkt[4 * (11 + padded / 4) .. 4 * (11 + padded / 4) + 4] == Be32(state);
  }

  /**
   * Decoding an encoded call recovers every header field, the name and the
   * state (the round trip the server relies on).
   */
  lemma CallRoundTrip(xid: u32, name: seq<byte>, state: u32)
    requires |name| < 0x1_0000_0000
    ensures DecodeCall(CallPacket(xid, name, state))
            == Some(CallMsg(xid, CALL, RPC_VERSION, NSM_PROGRAM, NSM_VERSION, SM_NOTIFY,
                            AUTH_NONE, AUTH_NONE, name, state))
  {
    var pkt := CallPacket(xid, name, state);
    forall i | 0 <= i < 11
      ensures WordAt(pkt, i) == CallWords(xid, |name|)[i]
    {
      CallPacketHead(xid, name, state, i);
    }
    assert WordAt(pkt, 7) == 0 && WordAt(pkt, 9) == 0 && WordAt(pkt, 10) == |name|;
    CallPacketTail(xid, name, state);
    var padded := 4 * ((|name| + 3) / 4);
    assert DecodeCall(pkt) == Some(CallMsg(WordAt(pkt, 0), WordAt(pkt, 1), WordAt(pkt, 2),
                                           WordAt(pkt, 3), WordAt(pkt, 4), WordAt(pkt, 5),
                                           WordAt(pkt, 6), WordAt(pkt, 8),
                                           pkt[CALL_HEAD_BYTES .. CALL_HEAD_BYTES + |name|],
                                           WordAt(pkt, 11 + padded / 4)));
  }

  /** The first six words of a reply (RFC 5531 section 9). */
  datatype ReplyHead = ReplyHead(xid: u32, msgType: u32, replyStat: u32,
                                 verfFlavor: u32, verfLen: u32, acceptStat: u32)

  function DecodeReplyHead(s: seq<byte>): Option<ReplyHead>
  {
    if |s| < REPLY_HEAD_BYTES then None
    else Some(ReplyHead(WordAt(s, 0), WordAt(s, 1), WordAt(s, 2),
                        WordAt(s, 3), WordAt(s, 4), WordAt(s, 5)))
  }

  /** The bytes of a reply head, for stating what the validators accept. */
  function ReplyPacket(h: ReplyHead): seq<byte>
  {
    Words([h.xid, h.msgType, h.replyStat, h.verfFlavor, h.verfLen, h.acceptStat])
  }

  lemma ReplyRoundTrip(h: ReplyHead)
    ensures DecodeReplyHead(ReplyPacket(h)) == Some(h)
  {
    var ws := [h.xid, h.msgType, h.replyStat, h.verfFlavor, h.verfLen, h.acceptStat];
    forall i | 0 <= i < 6 ensures WordAt(ReplyPacket(h), i) == ws[i] {
      WordsAt(ws, i);
    }
  }

  /** An accepted reply with an empty AUTH_NONE verifier and status SUCCESS. */
  predicate IsSuccess(h: ReplyHead)
  {
    h.msgType == REPLY && h.replyStat == MSG_ACCEPTED &&
    h.verfFlavor == AUTH_NONE && h.verfLen == 0 && h.acceptStat == SUCCESS
  }

  /** A received byte string whose head decodes to a successful reply. */
  predicate IsSuccessReply(s: seq<byte>)
  {
    DecodeReplyHead(s).Some? && IsSuccess(DecodeReplyHead(s).value)
  }
}

=== FILE: wrappers.dfy ===
/** Option and Result, for the error paths of the modelled C functions. */
module Wrappers {

  datatype Option<+T> = None | Some(value: T) {
    function GetOr(default: T): T {
      match this
      case Some(v) => v
      case None => default
    }
  }

  /** `Failure` carries a process exit status or a C error return code. */
  datatype Result<+R> = Success(value: R) | Failure(code: int)
}

=== FILE: xdr.dfy ===
/**
 * Bytes, 32-bit words and the XDR rules the hand-built packets follow
 * (RFC 4506: sections 3 and 4.2 for big-endian unsigned integers, section
 * 4.11 for length-prefixed strings padded with zero bytes to a multiple of 4).
 */
module Xdr {

  type byte = x: int | 0 <= x < 0x100
  type u16 = x: int | 0 <= x < 0x1_0000
  type u32 = x: int | 0 <= x < 0x1_0000_0000

  /** The low 32 bits of `x`, as an assignment to a C `unsigned int` keeps them. */
  function Wrap32(x: int): (r: u32)
    ensures (x - r) % 0x1_0000_0000 == 0
    ensures 0 <= x < 0x1_0000_0000 ==> r == x
  {
    x % 0x1_0000_0000
  }

  /** The value of four bytes in network (big-endian) order. */
  function FromBe32(b: seq<byte>): u32
    requires |b| == 4
  {
    (b[0] as int) * 0x100_0000 + (b[1] as int) * 0x1_0000 + (b[2] as int) * 0x100 + b[3] as int
  }

  /** The four bytes `htonl(v)` puts in memory: most significant first. */
  function Be32(v: u32): (b: seq<byte>)
    ensures |b| == 4 && FromBe32(b) == v
  {
    var q1 := v / 0x100;
    var q2 := q1 / 0x100;
    [q2 / 0x100, q2 % 0x100, q1 % 0x100, v % 0x100]
  }

  /** The 32-bit word at word index `i` of a byte string. */
  function WordAt(s: seq<byte>, i: nat): u32
    requires 4 * i + 4 <= |s|
  {
    FromBe32(s[4 * i .. 4 * i + 4])
  }

  /** The XDR encoding of a sequence of unsigned integers. */
  function Words(ws: seq<u32>): (b: seq<byte>)
    ensures |b| == 4 * |ws|
  {
    if ws == [] then [] else Words(ws[..|ws| - 1]) + Be32(ws[|ws| - 1])
  }

  function Zeros(n: nat): (z: seq<byte>)
    ensures |z| == n
  {
    seq(n, _ => 0)
  }

  /**
   * Number of zero bytes after a name of `n` bytes, computed as the C code
   * does: the write pointer advances by `(n + 3) >> 2` words.
   */
  function Pad(n: nat): (r: nat)
    ensures r < 4 && (n + r) % 4 == 0
    ensures r == (4 - n % 4) % 4
  {
    4 * ((n + 3) / 4) - n
  }

  /** Word `i` of an XDR word sequence decodes to `ws[i]`. */
  lemma {:induction false} WordsAt(ws: seq<u32>, i: nat)
    requires i < |ws|
    ensures WordAt(Words(ws), i) == ws[i]
  {
    var n := |ws| - 1;
    var init := ws[..n];
    assert Words(ws) == Words(init) + Be32(ws[n]);
    if i == n {
      assert Words(ws)[4 * i .. 4 * i + 4] == Be32(ws[n]);
    } else {
      WordsAt(init, i);
      assert Words(ws)[4 * i .. 4 * i + 4] == Words(init)[4 * i .. 4 * i + 4];
    }
  }

  /** A word that lies inside a prefix reads the same after anything is appended. */
  lemma WordAtPrefix(a: seq<byte>, b: seq<byte>, i: nat)
    requires 4 * i + 4 <= |a|
    ensures WordAt(a + b, i) == WordAt(a, i)
  {
    assert (a + b)[4 * i .. 4 * i + 4] == a[4 * i .. 4 * i + 4];
  }

  /** Appending one word appends its four bytes. */
  lemma WordsSnoc(ws: seq<u32>, v: u32)
    ensures Words(ws + [v]) == Words(ws) + Be32(v)
  {
    assert (ws + [v])[..|ws|] == ws;
  }

  /**
   * Stores `b` into `buf` from byte offset `at`: what `memcpy` and a store
   * through a `uint32_t *` do. Every other byte is left as it was.
   */
  method Store(buf: array<byte>, at: nat, b: seq<byte>)
    requires at + |b| <= buf.Length
    modifies buf
    ensures forall k :: 0 <= k < buf.Length ==>
              buf[k] == if at <= k < at + |b| then b[k - at] else old(buf[k])
  {
    var i := 0;
    while i < |b|
      invariant 0 <= i <= |b|
      invariant forall k :: 0 <= k < buf.Length ==>
                  buf[k] == if at <= k < at + i then b[k - at] else old(buf[k])
    {
      buf[at + i] := b[i];
      i := i + 1;
    }
  }

  /** The 32-bit word at word index `i` of a byte buffer. */
  function WordOf(buf: array<byte>, i: nat): u32
    requires 4 * i + 4 <= buf.Length
    reads buf
  {
    FromBe32(buf[4 * i .. 4 * i + 4])
  }

  /**
   * `buf` holds `w` at its start and zero bytes after it: the state of a
   * cleared message buffer once a write pointer has advanced over `w`.
   */
  ghost predicate Filled(buf: array<byte>, w: seq<byte>)
    reads buf
  {
    |w| <= buf.Length &&
    forall k :: 0 <= k < buf.Length ==> buf[k] == if k < |w| then w[k] else 0
  }

  /** `memset(buf, 0, sizeof(buf))`. */
  method Clear(buf: array<byte>)
    modifies buf
    ensures Filled(buf, [])
  {
    var i := 0;
    while i < buf.Length
      invariant 0 <= i <= buf.Length
      invariant forall k :: 0 <= k < i ==> buf[k] == 0
    {
      buf[i] := 0;
      i := i + 1;
    }
  }

  /** Writes `b` at the write pointer of a buffer filled with `w`. */
  method Emit(buf: array<byte>, at: nat, ghost w: seq<byte>, b: seq<byte>)
    requires Filled(buf, w) && at == |w| && |w| + |b| <= buf.Length
    modifies buf
    ensures Filled(buf, w + b)
  {
    Store(buf, at, b);
  }

  /**
   * `*p++ = htonl(v)` with the write pointer at word `p` of a buffer filled
   * with the words `ws`.
   */
  method EmitWord(buf: array<byte>, p: nat, ghost ws: seq<u32>, v: u32)
    requires Filled(buf, Words(ws)) && p == |ws| && 4 * p + 4 <= buf.Length
    modifies buf
    ensures Filled(buf, Words(ws + [v]))
  {
    Emit(buf, 4 * p, Words(ws), Be32(v));
    WordsSnoc(ws, v);
  }

  /** Consecutive `*p++ = htonl(v)` stores of the words `vs`. */
  method EmitWords(buf: array<byte>, p: nat, ghost ws: seq<u32>, vs: seq<u32>)
    requires Filled(buf, Words(ws)) && p == |ws| && 4 * (p + |vs|) <= buf.Length
    modifies buf
    ensures Filled(buf, Words(ws + vs))
  {
    var j := 0;
    assert ws + vs[..j] == ws;
    while j < |vs|
      invariant 0 <= j <= |vs|
      invariant Filled(buf, Words(ws + vs[..j]))
    {
      EmitWord(buf, p + j, ws + vs[..j], vs[j]);
      assert ws + vs[..j] + [vs[j]] == ws + vs[..j + 1];
      j := j + 1;
    }
    assert vs[..j] == vs;
  }

  /** Advancing the write pointer over `k` bytes of a cleared buffer leaves zeros there. */
  lemma SkipBytes(buf: array<byte>, w: seq<byte>, k: nat)
    requires Filled(buf, w) && |w| + k <= buf.Length
    ensures Filled(buf, w + Zeros(k))
  {
  }

  /** `p += k` over a cleared buffer: `k` zero words. */
  lemma {:induction false} SkipWords(buf: array<byte>, ws: seq<u32>, k: nat)
    requires Filled(buf, Words(ws)) && 4 * (|ws| + k) <= buf.Length
    ensures Filled(buf, Words(ws + seq(k, _ => 0)))
  {
    var zs: seq<u32> := seq(k, _ => 0);
    if k == 0 {
      assert ws + zs == ws;
    } else {
      var shorter := ws + seq(k - 1, _ => 0);
      SkipWords(buf, ws, k - 1);
      assert ws + zs == shorter + [0];
      WordsSnoc(shorter, 0);
      SkipBytes(buf, Words(shorter), 4);
      assert Be32(0) == Zeros(4);
    }
  }
}
